=== FILE: README.md ===
# Inventory store: a Dafny model

This project models the data layer of a small inventory tracker. The tracker
keeps three SQLite tables:

- `categories`, whose names are UNIQUE;
- `products`, each with a stock quantity and an optional category;
- `inventory_log`, an append-only ledger of signed stock changes.

The repository layer (`Category`, `Product` and `InventoryLog` in `Models.py`)
reads and writes these tables. `initialize_database` in `db_schema.py` creates
the tables and seeds a new database file.

The whole database is one immutable `Schema.Store`. It holds:

- two maps from ids to rows;
- the log as a sequence;
- the three AUTOINCREMENT counters;
- a clock.

Each repository write is a pure function from a store to a `Step`, which is
the new store plus the method's return value. Each read is a function of the
store, except the three name-ordered reads (`Categories.GetAll`,
`Products.GetAll` and `Products.Search`), which are methods: the two `GetAll`
build their rows with a loop, and `Search` filters the result of
`Products.GetAll`. The modules follow the program:

- `Schema` holds the tables, the counters and the store invariant. The
  invariant says:
  - ids lie below their counters;
  - the log is ordered by log id and by timestamp;
  - category names are unique;
  - **ledger conservation**: each stored quantity equals the sum of its
    product's log deltas.
- `SqlText` is SQLite's `LIKE` with ASCII-only case folding.
- `Collation` is `ORDER BY name` under the BINARY collation, with the sorted
  listing loop that both `GetAll` reads share.
- `Categories`, `Products` and `InventoryLog` are the three repository classes.
- `Inventory` replays a sequence of writes. It shows that:
  - every trace keeps the invariant;
  - stock stays non-negative when created stock is non-negative;
  - the log only grows;
  - ids are never reused.
- `Seed` is `initialize_database`, including its sample data.
- `Scenarios` holds worked examples on a fresh store.

Timestamps come from `CURRENT_TIMESTAMP`. The model replaces that with the
store's clock: each timestamped write takes a `tick: nat` and stamps its rows
`clock + tick`, so time never runs backwards. Prices are REAL in the tables and
nothing computes with them, so they are whole numbers of cents here.

Behaviour a reader might not expect, which the model follows:

- `Product.create` and `Product.update` do not check that the category exists
  (foreign keys are not enforced). They do not check the sign of price or
  quantity either.
- `update_quantity` accepts any action label with any sign of change. It
  returns True or False, not the new quantity.
- `search` with an empty keyword matches every product. The command line
  rejects an empty keyword before it gets here.
- Both log reads inner-join the products table. Once a product is deleted, its
  whole history disappears from both reads, including its own `DELETE` entry.
  The log rows remain stored; only the inner join hides them.
- Failures are plain False or None results. There are no typed errors.

## Model

| member | source | states |
|---|---|---|
| Categories.GetAll | Models.py:21-24 | returns every category row exactly once (as a multiset) in non-decreasing name order |
| Categories.ListedRows | Models.py:21-24 | a row is listed iff it is a stored category under its own id |
| Categories.GetById | Models.py:27-31 | finds a row iff the id is stored, and the row found is that category's row |
| Categories.Create | Models.py:34-41 | returns None, changing nothing, exactly when the name is already in use; otherwise returns the next AUTOINCREMENT id and adds only that row |
| Categories.CreateThenGet | Models.py:34-41 | after a successful create the new id was unused, a lookup returns the new row, and every other lookup is unchanged |
| Categories.Update | Models.py:44-63 | succeeds iff the id exists and the resulting name is held by no other category; an absent argument keeps the stored value; other rows and tables are unchanged; a failure changes nothing |
| Categories.Delete | Models.py:66-74 | succeeds iff the id exists and no product references it; then only that row is removed, and a failure changes nothing |
| Categories.DeleteGuard | Models.py:66-74 | a referenced category cannot be deleted and the store stays as it was; once no product references it, delete succeeds and the row is gone |
| Categories.CreatePreservesInvariant | Models.py:34-41 | creating a category keeps the store invariant, UNIQUE names included |
| Categories.UpdatePreservesInvariant | Models.py:44-63 | renaming a category keeps names unique and the rest of the invariant |
| Categories.DeletePreservesInvariant | Models.py:66-74 | deleting a category keeps the store invariant |
| Products.GetAll | Models.py:79-87 | returns every product exactly once, each with its category's name or NULL (the LEFT JOIN), in non-decreasing name order |
| Products.Insert | db_schema.py:68 | the row goes under the next product id, which no stored product holds while ids stay below the counter; other products, categories, the log and the clock are untouched |
| Products.GetById | Models.py:90-99 | finds a row iff the id is stored, and it is that product's joined row |
| Products.Filter | Models.py:109 | keeps each row that matches the search pattern, as often as it occurs, and drops every row that does not |
| Products.FilterSorted | Models.py:109-110 | filtering a name-ordered listing leaves it name-ordered |
| Products.Search | Models.py:102-112 | returns exactly the products whose name or non-NULL description matches `%keyword%`, each once, in name order |
| Products.MatchesPlainKeyword | Models.py:104-109 | for a keyword without `%` or `_`, a product matches iff the keyword occurs in its name or description up to ASCII case |
| Products.EmptyKeywordMatchesAll | Models.py:104-109 | an empty keyword matches every product |
| Products.Create | Models.py:115-131 | stores the row under the next product id with both timestamps at the write time, appends one `CREATE` entry for the full quantity, and changes nothing else |
| Products.Update | Models.py:136-162 | succeeds iff the id exists; given fields replace, absent ones keep; quantity, creation time, the log and other products are untouched; `updated_at` becomes the write time |
| Products.UpdateQuantity | Models.py:167-195 | refused, changing nothing, iff the product is missing or the stock would go negative; otherwise quantity becomes old plus change, one entry with that change is appended, and nothing else changes |
| Products.Delete | Models.py:198-216 | refused, changing nothing, iff the id is missing; otherwise appends `DELETE` with the negated quantity and removes only that product |
| Products.CreatePreservesInvariant | Models.py:118-129 | a new product id was never stored or logged, so its balance is exactly its initial quantity and the invariant holds |
| Products.CreatePreservesNonNegative | Models.py:118-129 | creating with non-negative stock keeps all stock non-negative |
| Products.UpdatePreservesInvariant | Models.py:156-160 | an attribute update keeps the invariant and non-negative stock |
| Products.UpdateQuantityPreservesInvariant | Models.py:176-193 | a stock adjustment moves quantity and log balance by the same change, so ledger conservation holds |
| Products.UpdateQuantityPreservesNonNegative | Models.py:178-180 | no stock adjustment can leave any quantity below zero |
| Products.DeletePreservesInvariant | Models.py:206-215 | deleting keeps the invariant and non-negative stock, and the deleted id's log balance returns to zero |
| InventoryLog.GetAll | Models.py:221-230 | returns a prefix of the full joined listing: exactly `limit` rows when `limit` is non-negative and that many exist, and every row when `limit` is negative or larger |
| InventoryLog.GetByProduct | Models.py:233-242 | returns the product's entries only, all of them while the product exists, and none once it is gone |
| InventoryLog.Joined | Models.py:224-227 | its own contract only bounds the result: at most one row per log entry, and every row's entry is in the log; soundness, completeness and order are the lemmas below |
| InventoryLog.JoinedSound | Models.py:224-226 | every joined row's product exists and the row carries that product's name |
| InventoryLog.JoinedComplete | Models.py:224-226 | every log entry whose product exists appears among the joined rows |
| InventoryLog.JoinedReadsNames | Models.py:224-226 | the join depends only on which products exist and on their names |
| InventoryLog.JoinedNewestFirst | Models.py:227 | on a time-ordered log, the joined rows come out with non-increasing timestamps |
| InventoryLog.GetAllNewestFirst | Models.py:227-228 | on a store that keeps the invariant, `get_all` rows are newest first and no entry cut off by LIMIT is newer than a returned one |
| InventoryLog.GetByProductNewestFirst | Models.py:240 | on a store that keeps the invariant, a product's history is newest first |
| InventoryLog.JoinedBalance | Models.py:233-242 | the deltas a product's history shows sum to its log balance |
| InventoryLog.HistoryAccountsForQuantity | Models.py:233-242 | under ledger conservation, a product's visible history sums to its current quantity |
| Inventory.ApplyPreservesInvariant | Models.py:34-216 | every repository write keeps the store invariant |
| Inventory.RunPreservesInvariant | Models.py:34-216 | every sequence of writes keeps the store invariant |
| Inventory.ApplyPreservesNonNegative | Models.py:178-180 | no write makes stock negative unless it creates a product with negative stock |
| Inventory.RunPreservesNonNegative | Models.py:178-180 | a trace whose product creations have non-negative stock never leaves any quantity negative |
| Inventory.ApplyExtends | Models.py:115-216 | a write only appends to the log, and no counter or clock moves back |
| Inventory.RunExtends | Models.py:115-216 | after any trace the old log is a prefix of the new one and the counters have not moved back |
| Inventory.NoProductIdReuse | db_schema.py:24 | a product created after any trace never gets an id that was stored or logged before, even if that product was deleted |
| Inventory.NoCategoryIdReuse | db_schema.py:16 | a category created after any trace never gets an id that was stored before |
| Inventory.DeleteHidesHistory | Models.py:209-215 | after a product is deleted, neither log read returns any entry of it, its `DELETE` entry included |
| Inventory.AdjustStockRecorded | Models.py:190-193 | a stock adjustment appears at the head of the product's history, above its earlier entries |
| Inventory.AdjustStockStrictlyNewest | Models.py:190-193 | an adjustment made at a later clock is strictly newer than every earlier entry of the product, so `ORDER BY l.timestamp DESC` puts it first under any tie order |
| Inventory.CreatedHistory | Models.py:123-129 | a new product's history is exactly its `CREATE` entry, so it inherits no older entries |
| Seed.InsertCategoriesFresh | db_schema.py:51-57 | distinct names not yet in use are all inserted under consecutive fresh ids, in list order |
| Seed.InsertCategories | db_schema.py:57 | a successful `executemany` of category inserts leaves products, the log and the clock untouched; a first name already in use violates UNIQUE and aborts it (None) |
| Seed.InsertProductsFresh | db_schema.py:60-68 | the products are inserted under consecutive fresh ids, in list order, stamped with the clock |
| Seed.InsertProducts | db_schema.py:68 | the product inserts always succeed, advance the product counter by one per row, and leave categories, the log and the clock untouched |
| Seed.FirstNamed | db_schema.py:73-74 | the lookup by name returns the lowest matching id in range, or None exactly when no row in range carries the name |
| Seed.LogInitialFound | db_schema.py:71-76 | when each name is found at the next id, the loop appends one `INITIAL` entry per product with its quantity |
| Seed.LogInitial | db_schema.py:71-76 | when every lookup succeeds, the old log is kept and one `INITIAL` entry per listed product, carrying its quantity, follows it in list order; a failed lookup aborts (None) |
| Seed.InitialEntriesBalance | db_schema.py:71-76 | the `INITIAL` entries credit each seeded product with its listed quantity and every other id with zero |
| Seed.PopulateContents | db_schema.py:49-76 | seeding new tables with distinct names yields exactly the listed categories, products and `INITIAL` entries |
| Seed.Populate | db_schema.py:49-76 | seeding a new file stamps it `now` and, on success, leaves exactly one `INITIAL` entry per listed product, carrying its quantity, in list order |
| Seed.SeededLogEntries | db_schema.py:71-76 | each seeded entry is the `INITIAL` entry of a distinct seeded product, with its starting quantity and the setup note |
| Seed.SeededStock | db_schema.py:60-68 | listed non-negative stock stays non-negative, and every seeded product's category exists |
| Seed.InitializeDatabase | db_schema.py:7-49 | an existing database is returned unchanged |
| Seed.SeededStoreWellFormed | db_schema.py:49-76 | a new file gets the four sample categories and six sample products; the seeded store keeps the invariant, ledger conservation included, and no stock is negative |
| Scenarios.SaleScenario | Models.py:167-195 | selling 3 of 5 new hammers leaves 2, logged as `CREATE +5` then `SALE -3` |
| Scenarios.RefusedSaleScenario | Models.py:179-180 | selling 5 of the remaining 2 is refused and changes nothing, the log included |
| Scenarios.SearchScenario | Models.py:102-112 | searching "ham" finds the hammer and searching "xyz" finds nothing |
| Scenarios.DeleteScenario | Models.py:198-242 | deleting the hammer logs `DELETE -2`; afterwards both the product and its history are invisible |
| Scenarios.DuplicateCategoryScenario | Models.py:34-41 | a second category with the same name is refused and the first is unaffected |
| SqlText.LikeIsContains | Models.py:104-109 | for a plain keyword, `text LIKE '%keyword%'` holds iff the keyword occurs in the text up to ASCII case |
| Collation.InsertSorted | Models.py:23 | inserting into a name-ordered list keeps it ordered and adds exactly the one row |
| Collation.SortedRows | Models.py:21-24 | the listing loop behind both `ORDER BY name` reads: given a row per key, distinct for distinct keys, it returns every key's row exactly once (as a multiset), in non-decreasing name order |

## Left out

- `Cli.py` and `Main.py` are not part of this model. They hold the menus, input parsing, printing and the caller-side checks: price and initial quantity must not be negative, stock amounts must be positive, RESTOCK adds and SALE subtracts, and an empty search keyword is rejected.
- The `Database` context manager and connection handling are left out. Each repository method is one atomic step.
- Products.Create: the `sqlite3.Error` path that returns None is not modelled. That path is a storage failure, and the model has no storage failures.
- Products.Create: quantities are unbounded integers. The source binds the quantity to a 64-bit INTEGER column, and a Python int outside [-2^63, 2^63 - 1] raises `OverflowError` during binding, which `except sqlite3.Error` does not catch; the model stores the value instead.
- Products.UpdateQuantity: the change and the new quantity are unbounded. In the source, a new quantity outside SQLite's 64-bit INTEGER range raises `OverflowError` while binding the quantity `UPDATE`, with no handler, and nothing is written. A change outside the range whose new quantity is inside it is worse: the quantity `UPDATE` has already run when the log `INSERT` raises while binding the change, and `Database.__exit__` commits regardless of the exception, so the new quantity is stored without its log entry. For example, a product created with quantity -1 and then adjusted by 2^63 ends with quantity 2^63 - 1 against a log balance of -1. The model instead returns true with both the quantity and the entry written.
- Products.UpdateQuantityPreservesInvariant: ledger conservation is proved for the model, whose integers are unbounded. In the source it fails on the path above, where a change outside the 64-bit range commits the quantity without its log entry; `Inventory.ApplyPreservesInvariant` and `Inventory.RunPreservesInvariant` inherit the same limit.
- Products.Delete: the negated quantity of the `DELETE` entry is unbounded; the source would raise on a stored quantity of -2^63, whose negation leaves the 64-bit range.
- InventoryLog.GetAll: a `limit` outside the 64-bit range raises during binding in the source; the model takes any integer.
- Categories.GetById: ids are unbounded integers; an id outside SQLite's 64-bit INTEGER range [-2^63, 2^63 - 1] raises `OverflowError` while binding the SELECT, where the model returns None.
- Categories.Update: ids are unbounded; an id outside the 64-bit range raises `OverflowError` at the first SELECT, which `except sqlite3.IntegrityError` does not catch, where the model returns false.
- Categories.Delete: ids are unbounded; an id outside the 64-bit range raises `OverflowError` at the first SELECT, where the model returns false.
- Products.GetById: ids are unbounded; an id outside the 64-bit range raises `OverflowError` while binding the SELECT, where the model returns None.
- Products.Create: a category id outside the 64-bit range raises `OverflowError` during binding, uncaught by `except sqlite3.Error`; the model stores the product and logs `CREATE`.
- Products.Update: ids are unbounded; a product id or category id outside the 64-bit range raises `OverflowError` during binding, uncaught by `except sqlite3.Error`, where the model returns false or true.
- Products.UpdateQuantity: a product id outside the 64-bit range raises `OverflowError` at the first SELECT, where the model returns false.
- Products.Delete: a product id outside the 64-bit range raises `OverflowError` at the first SELECT, where the model returns false.
- InventoryLog.GetByProduct: a product id outside the 64-bit range raises `OverflowError` while binding the SELECT, where the model returns no rows.
- Products.Update: the `sqlite3.Error` path that returns False is not modelled, because the model has no storage failures.
- Seed.InitializeDatabase: an existing file is assumed to already hold the three tables. A file without them would gain empty tables and no seed. After an exception, partial state is not modelled; the result is None. The closing `print` is left out.
- InventoryLog.GetAll: SQLite does not define the order of rows with equal timestamps, so it also does not define which of them a LIMIT keeps. The model returns them latest-logged first. `limit` is an explicit argument; in the source it defaults to 100.
- Inventory.AdjustStockRecorded: when `tick` is 0 the new entry can share its timestamp with earlier entries of the product, and its place at the head of the history then comes from the model's tie-break (later log id first), which `ORDER BY l.timestamp DESC` does not promise. `Inventory.AdjustStockStrictlyNewest` states the part that holds under every ordering, for `tick > 0`.
- InventoryLog.GetByProduct: rows with equal timestamps come out latest-logged first, as in `GetAll`.
- Categories.GetAll: the order of rows with equal names is unspecified. The contract claims only name order and the exact set of rows.
- Products.GetAll: ties in name are handled as in `Categories.GetAll`.
- Timestamps are an integer clock supplied with each write, not wall-clock seconds.
- Prices are integer cents, not floating point.
- Text is a sequence of characters. Comparison is by code point, and case folding covers ASCII only, as SQLite does by default. Encodings are not modelled.

=== FILE: categories.dfy ===
/**
 The category repository: list, look up, create, update and delete rows of
 the `categories` table.
 */
module Categories {
  import opened Schema
  import opened Collation

  /** A row of `SELECT * FROM categories`. */
  datatype CategoryRow = CategoryRow(id: Id, category: Category)

  function RowName(r: CategoryRow): string {
    r.category.name
  }

  /** Every row of the table, each once. */
  function Rows(s: Store): set<CategoryRow> {
    set id | id in s.categories :: CategoryRow(id, s.categories[id])
  }

  /** Some category already carries `name`. */
  predicate NameInUse(categories: map<Id, Category>, name: string) {
    exists id :: id in categories && categories[id].name == name
  }

  /** Some category other than `id` carries `name`. */
  predicate NameHeldByOther(categories: map<Id, Category>, name: string, id: Id) {
    exists other :: other in categories && other != id && categories[other].name == name
  }

  /**
   `SELECT * FROM categories ORDER BY name`: every row exactly once, in name
   order.
   */
  method GetAll(s: Store) returns (rows: seq<CategoryRow>)
    ensures SortedBy(rows, RowName)
    ensures multiset(rows) == multiset(Rows(s))
  {
    var row := id requires id in s.categories => CategoryRow(id, s.categories[id]);
    rows := SortedRows(s.categories.Keys, row, RowName);
    assert RowsFor(s.categories.Keys, row) == Rows(s);
  }

  /** A listed row is exactly a stored category under its own id. */
  lemma ListedRows(s: Store, rows: seq<CategoryRow>, r: CategoryRow)
    requires multiset(rows) == multiset(Rows(s))
    ensures r in rows <==> r.id in s.categories && s.categories[r.id] == r.category
  {
    assert r in rows <==> r in multiset(rows);
  }

  /** `SELECT * FROM categories WHERE category_id = ?`. */
  function GetById(s: Store, id: Id): (r: Option<Category>)
    ensures r.Some? <==> id in s.categories
    ensures r.Some? ==> CategoryRow(id, r.value) in Rows(s)
  {
    if id in s.categories then Some(s.categories[id]) else None
  }

  /**
   `INSERT INTO categories`: a fresh AUTOINCREMENT id, or None when the UNIQUE
   name constraint rejects the row.
   */
  function Create(s: Store, name: string, description: Option<string>): (out: Step<Option<Id>>)
    ensures out.result.None? <==> NameInUse(s.categories, name)
    ensures out.result.None? ==> out.store == s
    ensures out.result.Some? ==>
      && out.result.value == s.nextCategoryId
      && out.store == s.(categories := s.categories[out.result.value := Category(name, description)],
                         nextCategoryId := s.nextCategoryId + 1)
  {
    if NameInUse(s.categories, name) then Step(s, None)
    else
      var id := s.nextCategoryId;
      Step(s.(categories := s.categories[id := Category(name, description)], nextCategoryId := id + 1), Some(id))
  }

  /**
   Partial update: an absent argument keeps the stored value. False when
   the id is absent or the new name belongs to another category.
   */
  function Update(s: Store, id: Id, name: Option<string>, description: Option<string>): (out: Step<bool>)
    ensures out.result <==>
      (id in s.categories && !NameHeldByOther(s.categories, name.GetOr(s.categories[id].name), id))
    ensures !out.result ==> out.store == s
    ensures out.result ==>
      && out.store.categories.Keys == s.categories.Keys
      && out.store.categories[id].name == (if name.Some? then name.value else s.categories[id].name)
      && out.store.categories[id].description == (if description.Some? then description else s.categories[id].description)
      && (forall other :: other in s.categories && other != id ==> out.store.categories[other] == s.categories[other])
      && out.store == s.(categories := out.store.categories)
  {
    if id !in s.categories then Step(s, false)
    else
      var current := s.categories[id];
      var newName := name.GetOr(current.name);
      var newDescription := if description.Some? then description else current.description;
      if NameHeldByOther(s.categories, newName, id) then Step(s, false)
      else Step(s.(categories := s.categories[id := Category(newName, newDescription)]), true)
  }

  /** Some product's `category_id` is `id`. */
  predicate HasProducts(s: Store, id: Id) {
    exists pid :: pid in s.products && s.products[pid].categoryId == Some(id)
  }

  /**
   `DELETE FROM categories`, refused while any product references the
   category; False as well when the id is absent.
   */
  function Delete(s: Store, id: Id): (out: Step<bool>)
    ensures out.result <==> id in s.categories && !HasProducts(s, id)
    ensures !out.result ==> out.store == s
    ensures out.result ==> out.store == s.(categories := s.categories - {id})
  {
    if HasProducts(s, id) then Step(s, false)
    else if id !in s.categories then Step(s, false)
    else Step(s.(categories := s.categories - {id}), true)
  }

  /** After a successful create the new row is the only change a lookup can see. */
  lemma CreateThenGet(s: Store, name: string, description: Option<string>, other: Id)
    requires IdsAllocated(s)
    requires !NameInUse(s.categories, name)
    ensures var out := Create(s, name, description);
      && out.result.Some?
      && out.result.value !in s.categories
      && GetById(out.store, out.result.value) == Some(Category(name, description))
      && (other != out.result.value ==> GetById(out.store, other) == GetById(s, other))
  {
  }

  /** Category writes keep the UNIQUE name constraint and every other invariant. */
  lemma CreatePreservesInvariant(s: Store, name: string, description: Option<string>)
    requires Invariant(s)
    ensures Invariant(Create(s, name, description).store)
  {
    var out := Create(s, name, description);
    if out.result.Some? {
      var c := out.store.categories;
      forall a, b | a in c && b in c && c[a].name == c[b].name
        ensures a == b
      {
      }
    }
  }

  lemma UpdatePreservesInvariant(s: Store, id: Id, name: Option<string>, description: Option<string>)
    requires Invariant(s)
    ensures Invariant(Update(s, id, name, description).store)
  {
    var out := Update(s, id, name, description);
    if out.result {
      var c := out.store.categories;
      assert UniqueNames(c);
    }
  }

  lemma DeletePreservesInvariant(s: Store, id: Id)
    requires Invariant(s)
    ensures Invariant(Delete(s, id).store)
  {
  }

  /**
   The referential guard: once no product references the category, deleting
   it succeeds; while one does, it fails and nothing changes.
   */
  lemma DeleteGuard(s: Store, id: Id, pid: Id)
    requires id in s.categories
    ensures pid in s.products && s.products[pid].categoryId == Some(id) ==>
      Delete(s, id) == Step(s, false)
    ensures (forall p :: p in s.products ==> s.products[p].categoryId != Some(id)) ==>
      Delete(s, id).result && id !in Delete(s, id).store.categories
  {
  }
}

=== FILE: collation.dfy ===
/**
 `ORDER BY name` under SQLite's BINARY collation. Text is stored as UTF-8 and
 compared byte by byte, and UTF-8 byte order coincides with code-point order,
 so the order is lexicographic on characters.
 */
module Collation {

  /** `a` sorts no later than `b`. */
  predicate Le(a: string, b: string) {
    |a| == 0 || (|b| > 0 && (a[0] < b[0] || (a[0] == b[0] && Le(a[1..], b[1..]))))
  }

  lemma {:induction false} LeTotal(a: string, b: string)
    ensures Le(a, b) || Le(b, a)
  {
    if |a| > 0 && |b| > 0 && a[0] == b[0] {
      LeTotal(a[1..], b[1..]);
    }
  }

  lemma {:induction false} LeTransitive(a: string, b: string, c: string)
    requires Le(a, b) && Le(b, c)
    ensures Le(a, c)
  {
    if |a| > 0 && a[0] == b[0] && b[0] == c[0] {
      LeTransitive(a[1..], b[1..], c[1..]);
    }
  }

  /** The rows are in non-decreasing order of their sort key. */
  predicate SortedBy<T>(xs: seq<T>, key: T -> string) {
    forall i, j :: 0 <= i < j < |xs| ==> Le(key(xs[i]), key(xs[j]))
  }

  /**
   Where `x` goes in the sorted `xs`: after every row that sorts no later
   than it, before the rest.
   */
  function InsertionPoint<T>(xs: seq<T>, x: T, key: T -> string): (k: nat)
    requires SortedBy(xs, key)
    ensures k <= |xs|
    ensures forall i :: 0 <= i < k ==> Le(key(xs[i]), key(x))
    ensures forall i :: k <= i < |xs| ==> Le(key(x), key(xs[i]))
  {
    if |xs| == 0 then 0
    else if Le(key(xs[|xs| - 1]), key(x)) then
      assert forall i :: 0 <= i < |xs| ==> Le(key(xs[i]), key(x)) by {
        forall i | 0 <= i < |xs| - 1 {
          LeTransitive(key(xs[i]), key(xs[|xs| - 1]), key(x));
        }
      }
      |xs|
    else
      LeTotal(key(xs[|xs| - 1]), key(x));
      InsertionPoint(xs[..|xs| - 1], x, key)
  }

  /** Sorted insertion: the result is sorted and holds the old rows plus `x`. */
  function InsertSorted<T>(xs: seq<T>, x: T, key: T -> string): (r: seq<T>)
    requires SortedBy(xs, key)
    ensures SortedBy(r, key)
    ensures multiset(r) == multiset(xs) + multiset{x}
  {
    var k := InsertionPoint(xs, x, key);
    var r := xs[..k] + [x] + xs[k..];
    assert xs == xs[..k] + xs[k..];
    assert multiset(r) == multiset(xs[..k]) + multiset{x} + multiset(xs[k..]);
    assert SortedBy(r, key) by {
      forall i, j | 0 <= i < j < |r| ensures Le(key(r[i]), key(r[j])) {
        if i < k && j > k {
          LeTransitive(key(r[i]), key(x), key(r[j]));
        }
      }
    }
    r
  }

  /** The rows `row` builds for the keys in `keys`, each once. */
  function RowsFor<K, T>(keys: set<K>, row: K --> T): set<T>
    requires forall k :: k in keys ==> row.requires(k)
  {
    set k | k in keys :: row(k)
  }

  /** Adding a key whose row is new adds exactly that row. */
  lemma RowsForAdd<K, T>(keys: set<K>, row: K --> T, k: K)
    requires forall j :: j in keys + {k} ==> row.requires(j)
    requires row(k) !in RowsFor(keys, row)
    ensures multiset(RowsFor(keys + {k}, row)) == multiset(RowsFor(keys, row)) + multiset{row(k)}
  {
    assert RowsFor(keys + {k}, row) == RowsFor(keys, row) + {row(k)};
  }

  /** A loop over a set can always pick a next key while keys remain. */
  lemma SomeKey<K>(keys: set<K>)
    ensures keys == {} || exists k :: k in keys
  {
    if !(exists k :: k in keys) {
      assert keys == {};
    }
  }

  /**
   `SELECT ... ORDER BY name` over a table: the row of every key exactly once,
   in order of `key`. Rows of distinct keys are distinct, as each row carries
   its own primary key.
   */
  method SortedRows<K, T>(keys: set<K>, row: K --> T, key: T -> string) returns (rows: seq<T>)
    requires forall k :: k in keys ==> row.requires(k)
    requires forall a, b :: a in keys && b in keys && row(a) == row(b) ==> a == b
    ensures SortedBy(rows, key)
    ensures multiset(rows) == multiset(RowsFor(keys, row))
  {
    rows := [];
    var todo := keys;
    ghost var done: set<K> := {};
    while todo != {}
      invariant done !! todo && done + todo == keys
      invariant SortedBy(rows, key)
      invariant multiset(rows) == multiset(RowsFor(done, row))
      decreases todo
    {
      SomeKey(todo);
      var k :| k in todo;
      RowsForAdd(done, row, k);
      rows := InsertSorted(rows, row(k), key);
      todo := todo - {k};
      done := done + {k};
    }
  }
}

=== FILE: inventory.dfy ===
/**
 The store as a sequence of repository writes. Each write is one call into
 the category or product repository; a trace of writes keeps the store
 invariant, only ever appends to the inventory log, and never hands out an
 id twice.
 */
module Inventory {
  import opened Schema
  import Categories
  import Products
  import InventoryLog

  /** One repository write with its arguments. */
  datatype Op =
    | CreateCategory(name: string, description: Option<string>)
    | UpdateCategory(categoryId: Id, newName: Option<string>, newDescription: Option<string>)
    | DeleteCategory(categoryId: Id)
    | CreateProduct(name: string, description: Option<string>, price: Price, quantity: int, category: Option<Id>)
    | UpdateProduct(productId: Id, newName: Option<string>, newDescription: Option<string>, newPrice: Option<Price>, newCategory: Option<Id>)
    | AdjustStock(productId: Id, change: int, action: string, notes: Option<string>)
    | DeleteProduct(productId: Id)

  /** A write issued `tick` time units after the previous one. */
  datatype Call = Call(op: Op, tick: nat)

  /** The store after one write. */
  function Apply(s: Store, op: Op, tick: nat): Store {
    match op
    case CreateCategory(name, description) => Categories.Create(s, name, description).store
    case UpdateCategory(id, name, description) => Categories.Update(s, id, name, description).store
    case DeleteCategory(id) => Categories.Delete(s, id).store
    case CreateProduct(name, description, price, quantity, category) =>
      Products.Create(s, name, description, price, quantity, category, tick).store
    case UpdateProduct(id, name, description, price, category) =>
      Products.Update(s, id, name, description, price, category, tick).store
    case AdjustStock(id, change, action, notes) => Products.UpdateQuantity(s, id, change, action, notes, tick).store
    case DeleteProduct(id) => Products.Delete(s, id, tick).store
  }

  /** The store after a trace of writes, first call first. */
  function Run(s: Store, trace: seq<Call>): Store
    decreases |trace|
  {
    if |trace| == 0 then s else Run(Apply(s, trace[0].op, trace[0].tick), trace[1..])
  }

  /** Every write keeps the store invariant. */
  lemma ApplyPreservesInvariant(s: Store, op: Op, tick: nat)
    requires Invariant(s)
    ensures Invariant(Apply(s, op, tick))
  {
    match op
    case CreateCategory(name, description) => Categories.CreatePreservesInvariant(s, name, description);
    case UpdateCategory(id, name, description) => Categories.UpdatePreservesInvariant(s, id, name, description);
    case DeleteCategory(id) => Categories.DeletePreservesInvariant(s, id);
    case CreateProduct(name, description, price, quantity, category) =>
      Products.CreatePreservesInvariant(s, name, description, price, quantity, category, tick);
    case UpdateProduct(id, name, description, price, category) =>
      Products.UpdatePreservesInvariant(s, id, name, description, price, category, tick);
    case AdjustStock(id, change, action, notes) => Products.UpdateQuantityPreservesInvariant(s, id, change, action, notes, tick);
    case DeleteProduct(id) => Products.DeletePreservesInvariant(s, id, tick);
  }

  lemma {:induction false} RunPreservesInvariant(s: Store, trace: seq<Call>)
    requires Invariant(s)
    ensures Invariant(Run(s, trace))
    decreases |trace|
  {
    if |trace| > 0 {
      ApplyPreservesInvariant(s, trace[0].op, trace[0].tick);
      RunPreservesInvariant(Apply(s, trace[0].op, trace[0].tick), trace[1..]);
    }
  }

  /** The product writes the command line issues: created stock is never negative. */
  predicate NoNegativeCreate(trace: seq<Call>) {
    forall i :: 0 <= i < |trace| && trace[i].op.CreateProduct? ==> trace[i].op.quantity >= 0
  }

  lemma ApplyPreservesNonNegative(s: Store, op: Op, tick: nat)
    requires Invariant(s) && NonNegative(s)
    requires op.CreateProduct? ==> op.quantity >= 0
    ensures NonNegative(Apply(s, op, tick))
  {
    match op
    case CreateProduct(name, description, price, quantity, category) =>
      Products.CreatePreservesNonNegative(s, name, description, price, quantity, category, tick);
    case UpdateProduct(id, name, description, price, category) =>
      Products.UpdatePreservesInvariant(s, id, name, description, price, category, tick);
    case AdjustStock(id, change, action, notes) => Products.UpdateQuantityPreservesNonNegative(s, id, change, action, notes, tick);
    case DeleteProduct(id) => Products.DeletePreservesInvariant(s, id, tick);
    case _ =>
  }

  /**
   Stock never goes negative: a stock adjustment below zero is refused, and
   only a product created with negative stock could break this.
   */
  lemma {:induction false} RunPreservesNonNegative(s: Store, trace: seq<Call>)
    requires Invariant(s) && NonNegative(s)
    requires NoNegativeCreate(trace)
    ensures NonNegative(Run(s, trace))
    decreases |trace|
  {
    if |trace| > 0 {
      var next := Apply(s, trace[0].op, trace[0].tick);
      ApplyPreservesInvariant(s, trace[0].op, trace[0].tick);
      ApplyPreservesNonNegative(s, trace[0].op, trace[0].tick);
      assert NoNegativeCreate(trace[1..]) by {
        forall i | 0 <= i < |trace[1..]| && trace[1..][i].op.CreateProduct?
          ensures trace[1..][i].op.quantity >= 0
        {
          assert trace[1..][i] == trace[i + 1];
        }
      }
      RunPreservesNonNegative(next, trace[1..]);
    }
  }

  /** `later` only adds to `earlier`: the log grows at its end, and no counter or clock moves back. */
  predicate Extends(earlier: Store, later: Store) {
    && earlier.log <= later.log
    && earlier.nextCategoryId <= later.nextCategoryId
    && earlier.nextProductId <= later.nextProductId
    && earlier.nextLogId <= later.nextLogId
    && earlier.clock <= later.clock
  }

  /** No write edits or removes a log entry, and no write moves a counter or the clock back. */
  lemma ApplyExtends(s: Store, op: Op, tick: nat)
    ensures Extends(s, Apply(s, op, tick))
  {
  }

  lemma {:induction false} RunExtends(s: Store, trace: seq<Call>)
    ensures Extends(s, Run(s, trace))
    decreases |trace|
  {
    if |trace| > 0 {
      var next := Apply(s, trace[0].op, trace[0].tick);
      ApplyExtends(s, trace[0].op, trace[0].tick);
      RunExtends(next, trace[1..]);
    }
  }

  /**
   AUTOINCREMENT never reuses an id: a product created after any trace gets
   an id no product of the starting store ever had, even a deleted one.
   */
  lemma NoProductIdReuse(s: Store, trace: seq<Call>, used: Id, name: string, description: Option<string>, price: Price, quantity: int, category: Option<Id>, tick: nat)
    requires Invariant(s)
    requires used in s.products || exists i :: 0 <= i < |s.log| && s.log[i].productId == used
    ensures Products.Create(Run(s, trace), name, description, price, quantity, category, tick).result != used
  {
    RunExtends(s, trace);
  }

  /** Likewise for categories. */
  lemma NoCategoryIdReuse(s: Store, trace: seq<Call>, used: Id, name: string, description: Option<string>)
    requires Invariant(s) && used in s.categories
    ensures Categories.Create(Run(s, trace), name, description).result != Some(used)
  {
    RunExtends(s, trace);
  }

  /**
   Deleting a product hides its whole history, its `DELETE` entry included:
   the inner join finds no product row for those entries.
   */
  lemma DeleteHidesHistory(s: Store, id: Id, tick: nat, limit: int)
    requires id in s.products
    ensures var t := Products.Delete(s, id, tick).store;
      && InventoryLog.GetByProduct(t, id) == []
      && forall r :: r in InventoryLog.GetAll(t, limit) ==> r.entry.productId != id
  {
    var t := Products.Delete(s, id, tick).store;
    InventoryLog.JoinedSound(t.log, t.products, None);
  }

  /**
   A stock adjustment shows up at the head of the product's history, above the
   entries it had. With `tick == 0` it may share its timestamp with earlier
   entries, and then the head position is the model's tie-break; see
   `AdjustStockStrictlyNewest` for the case every ordering agrees on.
   */
  lemma AdjustStockRecorded(s: Store, id: Id, change: int, action: string, notes: Option<string>, tick: nat)
    requires id in s.products && s.products[id].quantity + change >= 0
    ensures var t := Products.UpdateQuantity(s, id, change, action, notes, tick).store;
      InventoryLog.GetByProduct(t, id)
        == [InventoryLog.LogRow(LogEntry(s.nextLogId, id, action, change, s.clock + tick, notes), s.products[id].name)]
           + InventoryLog.GetByProduct(s, id)
  {
    var t := Products.UpdateQuantity(s, id, change, action, notes, tick).store;
    assert t.log[..|t.log| - 1] == s.log;
    InventoryLog.JoinedReadsNames(s.log, t.products, s.products, Some(id));
  }

  /**
   An adjustment made after the clock has moved on is strictly newer than every
   entry the product's history held, so `ORDER BY timestamp DESC` puts it first
   whatever order SQLite picks among equal timestamps.
   */
  lemma AdjustStockStrictlyNewest(s: Store, id: Id, change: int, action: string, notes: Option<string>, tick: nat)
    requires LogOrdered(s) && tick > 0
    requires id in s.products && s.products[id].quantity + change >= 0
    ensures var t := Products.UpdateQuantity(s, id, change, action, notes, tick).store;
      var rows := InventoryLog.GetByProduct(t, id);
      && |rows| > 0
      && rows[0].entry.timestamp == s.clock + tick
      && forall r :: r in InventoryLog.GetByProduct(s, id) ==> r.entry.timestamp < rows[0].entry.timestamp
  {
    AdjustStockRecorded(s, id, change, action, notes, tick);
  }

  /**
   A new product's history is exactly its `CREATE` entry: it cannot inherit
   entries logged for an earlier product, since no earlier entry carries its
   fresh id.
   */
  lemma CreatedHistory(s: Store, name: string, description: Option<string>, price: Price, quantity: int, category: Option<Id>, tick: nat)
    requires Invariant(s)
    ensures var out := Products.Create(s, name, description, price, quantity, category, tick);
      InventoryLog.GetByProduct(out.store, out.result)
        == [InventoryLog.LogRow(LogEntry(s.nextLogId, out.result, CreateAction, quantity, s.clock + tick, Some("Product created")), name)]
  {
    var out := Products.Create(s, name, description, price, quantity, category, tick);
    var t := out.store;
    var id := out.result;
    assert t.log[..|t.log| - 1] == s.log;
    InventoryLog.JoinedEmpty(s.log, t.products, Some(id));
  }
}

=== FILE: inventory_log.dfy ===
/**
 The log reader: the inventory log joined with product names, newest first.
 The join is an inner join, so entries whose product has been deleted
 (including that product's own `DELETE` entry) are not returned.
 */
module InventoryLog {
  import opened Schema

  /** A log row with `p.name AS product_name`. */
  datatype LogRow = LogRow(entry: LogEntry, productName: string)

  /** The join keeps an entry when its product still exists and, when `only` is given, is that product. */
  predicate Joins(products: map<Id, Product>, e: LogEntry, only: Option<Id>) {
    e.productId in products && (only.None? || e.productId == only.value)
  }

  /**
   The entries the join keeps, each with its product's name, later log entries
   first. `ORDER BY timestamp DESC` fixes the order only between different
   timestamps; among equal timestamps, later-logged first is this model's own
   choice.
   */
  function Joined(log: seq<LogEntry>, products: map<Id, Product>, only: Option<Id>): (rows: seq<LogRow>)
    ensures |rows| <= |log|
    ensures forall r :: r in rows ==> r.entry in log
  {
    if |log| == 0 then []
    else
      var e := log[|log| - 1];
      var rest := Joined(log[..|log| - 1], products, only);
      if Joins(products, e, only) then [LogRow(e, products[e.productId].name)] + rest else rest
  }

  /** Every joined row passes the join and carries its product's current name. */
  lemma {:induction false} JoinedSound(log: seq<LogEntry>, products: map<Id, Product>, only: Option<Id>)
    ensures forall r :: r in Joined(log, products, only) ==>
      Joins(products, r.entry, only) && r.productName == products[r.entry.productId].name
  {
    if |log| > 0 {
      JoinedSound(log[..|log| - 1], products, only);
    }
  }

  /** Nothing is returned when no entry passes the join. */
  lemma {:induction false} JoinedEmpty(log: seq<LogEntry>, products: map<Id, Product>, only: Option<Id>)
    requires forall k :: 0 <= k < |log| ==> !Joins(products, log[k], only)
    ensures Joined(log, products, only) == []
  {
    if |log| > 0 {
      var n := |log| - 1;
      assert forall k :: 0 <= k < n ==> log[..n][k] == log[k];
      JoinedEmpty(log[..n], products, only);
    }
  }

  /** Every log entry that passes the join is returned, under its product's name. */
  lemma {:induction false} JoinedComplete(log: seq<LogEntry>, products: map<Id, Product>, only: Option<Id>)
    ensures forall k :: 0 <= k < |log| && Joins(products, log[k], only) ==>
      LogRow(log[k], products[log[k].productId].name) in Joined(log, products, only)
  {
    if |log| > 0 {
      var n := |log| - 1;
      JoinedComplete(log[..n], products, only);
      assert forall k :: 0 <= k < n ==> log[k] == log[..n][k];
    }
  }

  /** The join reads only which products exist and their names. */
  lemma {:induction false} JoinedReadsNames(log: seq<LogEntry>, p1: map<Id, Product>, p2: map<Id, Product>, only: Option<Id>)
    requires p1.Keys == p2.Keys
    requires forall id :: id in p1 ==> p1[id].name == p2[id].name
    ensures Joined(log, p1, only) == Joined(log, p2, only)
  {
    if |log| > 0 {
      JoinedReadsNames(log[..|log| - 1], p1, p2, only);
    }
  }

  /**
   `InventoryLog.get_all(limit)`: the newest `limit` joined entries. SQLite
   reads a negative LIMIT as no limit at all.
   */
  function GetAll(s: Store, limit: int): (rows: seq<LogRow>)
    ensures limit >= 0 ==> |rows| <= limit
    ensures rows <= Joined(s.log, s.products, None)
    ensures limit < 0 || limit >= |Joined(s.log, s.products, None)| ==> rows == Joined(s.log, s.products, None)
    ensures 0 <= limit <= |Joined(s.log, s.products, None)| ==> |rows| == limit
  {
    var all := Joined(s.log, s.products, None);
    if 0 <= limit < |all| then all[..limit] else all
  }

  /** `InventoryLog.get_by_product(id)`: the product's joined entries; none once it is deleted. */
  function GetByProduct(s: Store, id: Id): (rows: seq<LogRow>)
    ensures forall r :: r in rows ==> r.entry in s.log && r.entry.productId == id
    ensures id !in s.products ==> rows == []
    ensures id in s.products ==> forall k :: 0 <= k < |s.log| && s.log[k].productId == id ==>
      LogRow(s.log[k], s.products[id].name) in rows
  {
    JoinedSound(s.log, s.products, Some(id));
    JoinedComplete(s.log, s.products, Some(id));
    if id !in s.products then
      JoinedEmpty(s.log, s.products, Some(id));
      Joined(s.log, s.products, Some(id))
    else
      Joined(s.log, s.products, Some(id))
  }

  /**
   `a` is strictly later in the log than `b` and no older. The log-id part is
   the model's tie-break for equal timestamps, not something SQLite promises.
   */
  predicate Newer(a: LogEntry, b: LogEntry) {
    a.timestamp >= b.timestamp && a.logId > b.logId
  }

  /** The rows are newest first. */
  predicate NewestFirst(rows: seq<LogRow>) {
    forall i, j :: 0 <= i < j < |rows| ==> Newer(rows[i].entry, rows[j].entry)
  }

  /** Every joined row is no newer than an entry that is newer than the whole log. */
  lemma JoinedOlderThan(log: seq<LogEntry>, products: map<Id, Product>, only: Option<Id>, e: LogEntry)
    requires forall k :: 0 <= k < |log| ==> Newer(e, log[k])
    ensures forall r :: r in Joined(log, products, only) ==> Newer(e, r.entry)
  {
  }

  /** A row newer than every row of a newest-first list can go in front of it. */
  lemma PrependNewestFirst(head: LogRow, rest: seq<LogRow>)
    requires NewestFirst(rest)
    requires forall r :: r in rest ==> Newer(head.entry, r.entry)
    ensures NewestFirst([head] + rest)
  {
    var rows := [head] + rest;
    forall i, j | 0 <= i < j < |rows| ensures Newer(rows[i].entry, rows[j].entry) {
      assert rows[j] == rest[j - 1];
      if i > 0 {
        assert rows[i] == rest[i - 1];
      }
    }
  }

  /**
   The joined rows come out newest first: timestamps never increase, as
   `ORDER BY timestamp DESC` requires. Rows with equal timestamps come out
   later log id first, which is the model's choice among the orders SQLite
   allows.
   */
  lemma {:induction false} JoinedNewestFirst(log: seq<LogEntry>, products: map<Id, Product>, only: Option<Id>)
    requires Chronological(log)
    ensures NewestFirst(Joined(log, products, only))
  {
    if |log| > 0 {
      var n := |log| - 1;
      var prefix := log[..n];
      var rest := Joined(prefix, products, only);
      assert Chronological(prefix);
      JoinedNewestFirst(prefix, products, only);
      if Joins(products, log[n], only) {
        var head := LogRow(log[n], products[log[n].productId].name);
        JoinedOlderThan(prefix, products, only, log[n]);
        PrependNewestFirst(head, rest);
      }
    }
  }

  /**
   On a store that keeps the invariant, `get_all` returns its rows newest
   first, and every joined entry the LIMIT cuts off is no newer than the
   rows returned.
   */
  lemma GetAllNewestFirst(s: Store, limit: int)
    requires Invariant(s)
    ensures var rows := GetAll(s, limit);
      var all := Joined(s.log, s.products, None);
      && NewestFirst(rows)
      && (forall i, k :: 0 <= i < |rows| <= k < |all| ==> rows[i].entry.timestamp >= all[k].entry.timestamp)
  {
    assert Chronological(s.log);
    JoinedNewestFirst(s.log, s.products, None);
  }

  lemma GetByProductNewestFirst(s: Store, id: Id)
    requires Invariant(s)
    ensures NewestFirst(GetByProduct(s, id))
  {
    assert Chronological(s.log);
    JoinedNewestFirst(s.log, s.products, Some(id));
  }

  /** The sum of the deltas of some log rows. */
  function RowsDelta(rows: seq<LogRow>): int {
    if |rows| == 0 then 0 else rows[0].entry.delta + RowsDelta(rows[1..])
  }

  lemma {:induction false} JoinedBalance(log: seq<LogEntry>, products: map<Id, Product>, id: Id)
    requires id in products
    ensures RowsDelta(Joined(log, products, Some(id))) == SumDeltas(log, id)
  {
    if |log| > 0 {
      var n := |log| - 1;
      var rest := Joined(log[..n], products, Some(id));
      JoinedBalance(log[..n], products, id);
      if Joins(products, log[n], Some(id)) {
        assert ([LogRow(log[n], products[id].name)] + rest)[1..] == rest;
      }
    }
  }

  /**
   The history a product's log view shows accounts for its stock: on a store
   that keeps ledger conservation, its deltas sum to the current quantity.
   */
  lemma HistoryAccountsForQuantity(s: Store, id: Id)
    requires Ledger(s) && id in s.products
    ensures RowsDelta(GetByProduct(s, id)) == s.products[id].quantity
  {
    JoinedBalance(s.log, s.products, id);
  }
}

=== FILE: products.dfy ===
/**
 The product repository: list, look up and search products, and the writes
 that keep each product's quantity and its inventory log in step (create,
 update, stock adjustment, delete).
 */
module Products {
  import opened Schema
  import opened Collation
  import opened SqlText

  /** A product row with `c.name AS category_name` from the LEFT JOIN on categories. */
  datatype ProductRow = ProductRow(id: Id, product: Product, categoryName: Option<string>)

  function RowName(r: ProductRow): string {
    r.product.name
  }

  /** The LEFT JOIN: the category's name, or NULL when the reference is NULL or dangling. */
  function CategoryName(categories: map<Id, Category>, categoryId: Option<Id>): Option<string> {
    if categoryId.Some? && categoryId.value in categories then Some(categories[categoryId.value].name) else None
  }

  function Row(s: Store, id: Id): ProductRow
    requires id in s.products
  {
    ProductRow(id, s.products[id], CategoryName(s.categories, s.products[id].categoryId))
  }

  /** Every joined product row, each once. */
  function Rows(s: Store): set<ProductRow> {
    set id | id in s.products :: Row(s, id)
  }

  /** `SELECT p.*, c.name ... ORDER BY p.name`: every product exactly once, in name order. */
  method GetAll(s: Store) returns (rows: seq<ProductRow>)
    ensures SortedBy(rows, RowName)
    ensures multiset(rows) == multiset(Rows(s))
  {
    var row := id requires id in s.products => Row(s, id);
    rows := SortedRows(s.products.Keys, row, RowName);
    assert RowsFor(s.products.Keys, row) == Rows(s);
  }

  /** `... WHERE p.product_id = ?`. */
  function GetById(s: Store, id: Id): (r: Option<ProductRow>)
    ensures r.Some? <==> id in s.products
    ensures r.Some? ==> r.value in Rows(s) && r.value.id == id
  {
    if id in s.products then Some(Row(s, id)) else None
  }

  /** `p.name LIKE '%keyword%' OR p.description LIKE '%keyword%'`; a NULL description never matches. */
  predicate Matches(p: Product, keyword: string) {
    var pattern := "%" + keyword + "%";
    Like(pattern, p.name) || (p.description.Some? && Like(pattern, p.description.value))
  }

  /** The rows of `xs` that match, in their original order. */
  function Filter(xs: seq<ProductRow>, keyword: string): (r: seq<ProductRow>)
    ensures forall x :: multiset(r)[x] == if Matches(x.product, keyword) then multiset(xs)[x] else 0
  {
    if |xs| == 0 then []
    else
      assert xs == [xs[0]] + xs[1..];
      var rest := Filter(xs[1..], keyword);
      if Matches(xs[0].product, keyword) then [xs[0]] + rest else rest
  }

  /** Filtering keeps the name order. */
  lemma {:induction false} FilterSorted(xs: seq<ProductRow>, keyword: string)
    requires SortedBy(xs, RowName)
    ensures SortedBy(Filter(xs, keyword), RowName)
  {
    if |xs| > 0 {
      assert xs == [xs[0]] + xs[1..];
      var rest := Filter(xs[1..], keyword);
      FilterSorted(xs[1..], keyword);
      forall x | x in rest ensures Le(RowName(xs[0]), RowName(x)) {
        assert multiset(rest)[x] > 0;
        assert x in xs[1..];
      }
    }
  }

  /** The product rows a search for `keyword` must return. */
  function MatchingRows(s: Store, keyword: string): set<ProductRow> {
    set r | r in Rows(s) && Matches(r.product, keyword)
  }

  /** `Product.search`: every matching product exactly once, in name order. */
  method Search(s: Store, keyword: string) returns (rows: seq<ProductRow>)
    ensures SortedBy(rows, RowName)
    ensures multiset(rows) == multiset(MatchingRows(s, keyword))
  {
    var all := GetAll(s);
    rows := Filter(all, keyword);
    FilterSorted(all, keyword);
    assert forall x :: multiset(rows)[x] == multiset(MatchingRows(s, keyword))[x];
  }

  /** For a keyword without wildcards, a search is case-insensitive substring matching. */
  lemma MatchesPlainKeyword(p: Product, keyword: string)
    requires Plain(keyword)
    ensures Matches(p, keyword) <==>
      ContainsFolded(p.name, keyword) || (p.description.Some? && ContainsFolded(p.description.value, keyword))
  {
    LikeIsContains(keyword, p.name);
    if p.description.Some? {
      LikeIsContains(keyword, p.description.value);
    }
  }

  /** An empty keyword is not rejected here: it matches every product. */
  lemma EmptyKeywordMatchesAll(s: Store)
    ensures MatchingRows(s, "") == Rows(s)
  {
    forall r | r in Rows(s) ensures Matches(r.product, "") {
      SqlText.EmptyKeywordMatchesAll(r.product.name);
    }
  }

  /**
   `INSERT INTO products`, stamped with the store's clock; no log entry. The
   row goes under the next AUTOINCREMENT id, which no stored product holds
   while ids stay below the counter.
   */
  function Insert(s: Store, name: string, description: Option<string>, price: Price, quantity: int, categoryId: Option<Id>): (out: Step<Id>)
    ensures IdsAllocated(s) ==> out.result !in s.products
    ensures out.result in out.store.products
    ensures out.store.products[out.result] == Product(name, description, price, quantity, categoryId, s.clock, s.clock)
    ensures forall id :: id != out.result ==> (id in out.store.products <==> id in s.products)
    ensures forall id :: id in s.products && id != out.result ==> out.store.products[id] == s.products[id]
    ensures out.store.log == s.log && out.store.categories == s.categories && out.store.clock == s.clock
    ensures out.store.nextProductId == out.result + 1
  {
    var id := s.nextProductId;
    Step(s.(products := s.products[id := Product(name, description, price, quantity, categoryId, s.clock, s.clock)],
            nextProductId := id + 1),
         id)
  }

  /**
   `Product.create`: inserts the row under a fresh id and logs `CREATE` with
   the initial quantity. Neither the category nor the signs of price and
   quantity are checked.
   */
  function Create(s: Store, name: string, description: Option<string>, price: Price, quantity: int, categoryId: Option<Id>, tick: nat): (out: Step<Id>)
    ensures out.result == s.nextProductId
    ensures out.store.products == s.products[out.result := Product(name, description, price, quantity, categoryId, s.clock + tick, s.clock + tick)]
    ensures out.store.log == s.log + [LogEntry(s.nextLogId, out.result, CreateAction, quantity, s.clock + tick, Some("Product created"))]
    ensures out.store == s.(products := out.store.products, log := out.store.log, nextProductId := s.nextProductId + 1,
                            nextLogId := s.nextLogId + 1, clock := s.clock + tick)
  {
    var inserted := Insert(Advance(s, tick), name, description, price, quantity, categoryId);
    Step(AppendLog(inserted.store, inserted.result, CreateAction, quantity, Some("Product created")), inserted.result)
  }

  /**
   `Product.update`: each absent argument keeps the stored value; quantity
   and the log are left alone. False exactly when the id is absent.
   */
  function Update(s: Store, id: Id, name: Option<string>, description: Option<string>, price: Option<Price>, categoryId: Option<Id>, tick: nat): (out: Step<bool>)
    ensures out.result <==> id in s.products
    ensures !out.result ==> out.store == s
    ensures out.result ==> out.store.products.Keys == s.products.Keys
    ensures out.result ==>
      var before := s.products[id];
      var after := out.store.products[id];
      && after.name == (if name.Some? then name.value else before.name)
      && after.description == (if description.Some? then description else before.description)
      && after.price == (if price.Some? then price.value else before.price)
      && after.categoryId == (if categoryId.Some? then categoryId else before.categoryId)
      && after.quantity == before.quantity
      && after.createdAt == before.createdAt
      && after.updatedAt == s.clock + tick
      && (forall other :: other in s.products && other != id ==> out.store.products[other] == s.products[other])
      && out.store == s.(products := out.store.products, clock := s.clock + tick)
  {
    if id !in s.products then Step(s, false)
    else
      var now := s.clock + tick;
      var p := s.products[id];
      var updated := p.(name := name.GetOr(p.name),
                        description := if description.Some? then description else p.description,
                        price := price.GetOr(p.price),
                        categoryId := if categoryId.Some? then categoryId else p.categoryId,
                        updatedAt := now);
      Step(s.(products := s.products[id := updated], clock := now), true)
  }

  /**
   `Product.update_quantity`: refused (False, nothing changed) when the
   product is absent or the stock would go below zero; otherwise sets the
   new quantity and appends exactly one log entry. Any action label and any
   sign of change are accepted.
   */
  function UpdateQuantity(s: Store, id: Id, change: int, action: string, notes: Option<string>, tick: nat): (out: Step<bool>)
    ensures out.result <==> id in s.products && s.products[id].quantity + change >= 0
    ensures !out.result ==> out.store == s
    ensures out.result ==>
      && out.store.products.Keys == s.products.Keys
      && out.store.products[id] == s.products[id].(quantity := s.products[id].quantity + change, updatedAt := s.clock + tick)
      && out.store.products[id].quantity >= 0
      && (forall other :: other in s.products && other != id ==> out.store.products[other] == s.products[other])
      && out.store.log == s.log + [LogEntry(s.nextLogId, id, action, change, s.clock + tick, notes)]
      && out.store == s.(products := out.store.products, log := out.store.log, nextLogId := s.nextLogId + 1,
                         clock := s.clock + tick)
  {
    if id !in s.products then Step(s, false)
    else
      var current := s.products[id].quantity;
      var newQuantity := current + change;
      if newQuantity < 0 then Step(s, false)
      else
        var s1 := Advance(s, tick);
        var s2 := s1.(products := s1.products[id := s1.products[id].(quantity := newQuantity, updatedAt := s1.clock)]);
        Step(AppendLog(s2, id, action, change, notes), true)
  }

  /**
   `Product.delete`: False with nothing changed for an absent id; otherwise
   logs `DELETE` with the negated quantity and removes the row.
   */
  function Delete(s: Store, id: Id, tick: nat): (out: Step<bool>)
    ensures out.result <==> id in s.products
    ensures !out.result ==> out.store == s
    ensures out.result ==>
      && out.store.products == s.products - {id}
      && out.store.log == s.log + [LogEntry(s.nextLogId, id, DeleteAction, -s.products[id].quantity, s.clock + tick, Some("Product deleted"))]
      && out.store == s.(products := out.store.products, log := out.store.log, nextLogId := s.nextLogId + 1,
                         clock := s.clock + tick)
  {
    if id !in s.products then Step(s, false)
    else
      var current := s.products[id].quantity;
      var logged := AppendLog(Advance(s, tick), id, DeleteAction, -current, Some("Product deleted"));
      Step(logged.(products := logged.products - {id}), true)
  }

  /**
   A created product starts with a zero balance (its id was never logged
   before), so after the `CREATE` entry its balance is its quantity.
   */
  lemma CreatePreservesInvariant(s: Store, name: string, description: Option<string>, price: Price, quantity: int, categoryId: Option<Id>, tick: nat)
    requires Invariant(s)
    ensures var out := Create(s, name, description, price, quantity, categoryId, tick);
      && out.result !in s.products
      && SumDeltas(out.store.log, out.result) == quantity
      && Invariant(out.store)
  {
    var out := Create(s, name, description, price, quantity, categoryId, tick);
    var t := out.store;
    var id := out.result;
    var e := LogEntry(s.nextLogId, id, CreateAction, quantity, s.clock + tick, Some("Product created"));
    SumDeltasUntouched(s.log, id);
    SumDeltasAppend(s.log, e, id);
    AppendKeepsLogOrdered(s, t, e);
    AppendKeepsLedger(s, t, e);
    assert IdsAllocated(t);
  }

  lemma CreatePreservesNonNegative(s: Store, name: string, description: Option<string>, price: Price, quantity: int, categoryId: Option<Id>, tick: nat)
    requires NonNegative(s) && quantity >= 0
    ensures NonNegative(Create(s, name, description, price, quantity, categoryId, tick).store)
  {
  }

  lemma UpdatePreservesInvariant(s: Store, id: Id, name: Option<string>, description: Option<string>, price: Option<Price>, categoryId: Option<Id>, tick: nat)
    requires Invariant(s)
    ensures Invariant(Update(s, id, name, description, price, categoryId, tick).store)
    ensures NonNegative(s) ==> NonNegative(Update(s, id, name, description, price, categoryId, tick).store)
  {
  }

  /** The ledger step: the product's balance and its quantity move by the same change. */
  lemma UpdateQuantityPreservesInvariant(s: Store, id: Id, change: int, action: string, notes: Option<string>, tick: nat)
    requires Invariant(s)
    ensures Invariant(UpdateQuantity(s, id, change, action, notes, tick).store)
  {
    var out := UpdateQuantity(s, id, change, action, notes, tick);
    if out.result {
      var t := out.store;
      var e := LogEntry(s.nextLogId, id, action, change, s.clock + tick, notes);
      AppendKeepsLogOrdered(s, t, e);
      AppendKeepsLedger(s, t, e);
      assert IdsAllocated(t);
    }
  }

  lemma UpdateQuantityPreservesNonNegative(s: Store, id: Id, change: int, action: string, notes: Option<string>, tick: nat)
    requires NonNegative(s)
    ensures NonNegative(UpdateQuantity(s, id, change, action, notes, tick).store)
  {
  }

  /** Deleting logs the negated quantity, so the deleted id's balance returns to zero. */
  lemma DeletePreservesInvariant(s: Store, id: Id, tick: nat)
    requires Invariant(s)
    ensures var out := Delete(s, id, tick);
      && Invariant(out.store)
      && (out.result ==> SumDeltas(out.store.log, id) == 0)
      && (NonNegative(s) ==> NonNegative(out.store))
  {
    var out := Delete(s, id, tick);
    if out.result {
      var t := out.store;
      var e := LogEntry(s.nextLogId, id, DeleteAction, -s.products[id].quantity, s.clock + tick, Some("Product deleted"));
      AppendKeepsLogOrdered(s, t, e);
      AppendKeepsLedger(s, t, e);
      SumDeltasAppend(s.log, e, id);
      assert IdsAllocated(t);
    }
  }
}

=== FILE: scenarios.dfy ===
/**
 Worked examples on a fresh store: a sale, a refused sale, a search, a
 delete and a duplicate category name.
 */
module Scenarios {
  import opened Schema
  import Categories
  import Products
  import InventoryLog
  import SqlText

  /** A category "Tools" and a product "Hammer" of 5 units in it; the product's id. */
  function Tools(now: int): Step<Id> {
    var c := Categories.Create(Empty(now), "Tools", None);
    Products.Create(c.store, "Hammer", None, 999, 5, c.result, 0)
  }

  /** The hammer store after selling 3 units. */
  function AfterSale(now: int): Step<bool> {
    var p := Tools(now);
    Products.UpdateQuantity(p.store, p.result, -3, "SALE", None, 0)
  }

  /** Selling 3 of 5 hammers leaves 2, logged as `CREATE +5` then `SALE -3`. */
  lemma SaleScenario(now: int)
    ensures var p := Tools(now);
      var a := AfterSale(now);
      && p.result == 1
      && a.result
      && a.store.products[1].quantity == 2
      && |a.store.log| == 2
      && a.store.log[0].action == CreateAction && a.store.log[0].delta == 5
      && a.store.log[1].action == "SALE" && a.store.log[1].delta == -3
  {
  }

  /** Selling 5 of the remaining 2 is refused and changes nothing, the log included. */
  lemma RefusedSaleScenario(now: int)
    ensures var a := AfterSale(now);
      var b := Products.UpdateQuantity(a.store, 1, -5, "SALE", None, 0);
      && !b.result
      && b.store == a.store
      && b.store.products[1].quantity == 2
      && |b.store.log| == 2
  {
    SaleScenario(now);
  }

  /** "ham" occurs in "Hammer" up to case; "xyz" does not. */
  lemma HammerMatches(p: Product)
    requires p.name == "Hammer" && p.description.None?
    ensures Products.Matches(p, "ham") && !Products.Matches(p, "xyz")
  {
    Products.MatchesPlainKeyword(p, "ham");
    assert SqlText.MatchesAt(p.name, "ham", 0);
    Products.MatchesPlainKeyword(p, "xyz");
    assert forall k :: 0 <= k < |p.name| ==> SqlText.Fold(p.name[k]) != SqlText.Fold("xyz"[0]);
    assert !SqlText.ContainsFolded(p.name, "xyz");
  }

  /** Searching "ham" finds the hammer, whatever the case of its name; "xyz" finds nothing. */
  lemma SearchScenario(now: int)
    ensures var s := AfterSale(now).store;
      && Products.MatchingRows(s, "ham") == Products.Rows(s)
      && Products.MatchingRows(s, "xyz") == {}
  {
    var s := AfterSale(now).store;
    SaleScenario(now);
    assert s.products.Keys == {1};
    HammerMatches(s.products[1]);
  }

  /** Deleting the hammer logs `DELETE -2`; afterwards neither the product nor its history is visible. */
  lemma DeleteScenario(now: int)
    ensures var a := AfterSale(now);
      var d := Products.Delete(a.store, 1, 0);
      && d.result
      && |d.store.log| == 3
      && d.store.log[2].action == DeleteAction && d.store.log[2].delta == -2
      && Products.GetById(d.store, 1).None?
      && InventoryLog.GetByProduct(d.store, 1) == []
  {
    SaleScenario(now);
  }

  /** A second category named "A" is refused and the first is unaffected. */
  lemma DuplicateCategoryScenario(now: int)
    ensures var first := Categories.Create(Empty(now), "A", None);
      var second := Categories.Create(first.store, "A", None);
      && first.result == Some(1)
      && second.result.None?
      && second.store == first.store
      && Categories.GetById(second.store, 1) == Some(Category("A", None))
  {
    var first := Categories.Create(Empty(now), "A", None);
    assert first.store.categories[1].name == "A";
  }
}

=== FILE: schema.dfy ===
/**
 The three tables of the inventory store (categories, products and the
 inventory log), the AUTOINCREMENT counters that hand out their ids, and the
 invariants that tie product quantities to the log.
 */
module Schema {

  /** A nullable column, or an argument that may be left out. */
  datatype Option<T> = None | Some(value: T) {
    /** The value, or `default` when absent ("None means keep current"). */
    function GetOr(default: T): T {
      if Some? then value else default
    }
  }

  /** Row ids handed out by AUTOINCREMENT. */
  type Id = int

  /** Prices are stored as REAL; nothing computes with them, so a whole number of cents stands in. */
  type Price = int

  datatype Category = Category(name: string, description: Option<string>)

  datatype Product = Product(
    name: string,
    description: Option<string>,
    price: Price,
    quantity: int,
    categoryId: Option<Id>,
    createdAt: int,
    updatedAt: int)

  /** One row of `inventory_log`; `delta` is the signed change in stock. */
  datatype LogEntry = LogEntry(
    logId: Id,
    productId: Id,
    action: string,
    delta: int,
    timestamp: int,
    notes: Option<string>)

  /**
   The whole store. `next*` are the next ids AUTOINCREMENT will hand out;
   `clock` is the latest timestamp any write has used.
   */
  datatype Store = Store(
    categories: map<Id, Category>,
    products: map<Id, Product>,
    log: seq<LogEntry>,
    nextCategoryId: Id,
    nextProductId: Id,
    nextLogId: Id,
    clock: int)

  /** The store after one operation, with the operation's return value. */
  datatype Step<R> = Step(store: Store, result: R)

  const CreateAction := "CREATE"
  const DeleteAction := "DELETE"
  const InitialAction := "INITIAL"

  /** Freshly created tables: nothing stored, every counter at 1. */
  function Empty(clock: int): Store {
    Store(map[], map[], [], 1, 1, 1, clock)
  }

  /** The clock moves forward by `tick` before a timestamped write. */
  function Advance(s: Store, tick: nat): Store {
    s.(clock := s.clock + tick)
  }

  /** INSERT INTO inventory_log, stamped with the store's clock. */
  function AppendLog(s: Store, productId: Id, action: string, delta: int, notes: Option<string>): Store {
    s.(log := s.log + [LogEntry(s.nextLogId, productId, action, delta, s.clock, notes)],
       nextLogId := s.nextLogId + 1)
  }

  /** The contribution of one log entry to product `id`. */
  function DeltaFor(e: LogEntry, id: Id): int {
    if e.productId == id then e.delta else 0
  }

  /** The sum of the deltas the log records for product `id`. */
  function SumDeltas(log: seq<LogEntry>, id: Id): int {
    if |log| == 0 then 0
    else SumDeltas(log[..|log| - 1], id) + DeltaFor(log[|log| - 1], id)
  }

  lemma SumDeltasAppend(log: seq<LogEntry>, e: LogEntry, id: Id)
    ensures SumDeltas(log + [e], id) == SumDeltas(log, id) + DeltaFor(e, id)
  {
    assert (log + [e])[..|log|] == log;
  }

  /**
   A write that appends `e` under the next log id, stamped no earlier than
   the old clock and no later than the new one, keeps the log ordered.
   */
  lemma AppendKeepsLogOrdered(s: Store, t: Store, e: LogEntry)
    requires IdsAllocated(s) && LogOrdered(s)
    requires t.log == s.log + [e] && e.logId == s.nextLogId && s.clock <= e.timestamp <= t.clock
    ensures LogOrdered(t)
  {
  }

  /** A write that appends `e` keeps the ledger when every stored quantity moved by exactly `e`'s delta. */
  lemma AppendKeepsLedger(s: Store, t: Store, e: LogEntry)
    requires t.log == s.log + [e]
    requires forall p :: p in t.products ==> t.products[p].quantity == SumDeltas(s.log, p) + DeltaFor(e, p)
    ensures Ledger(t)
  {
    forall p | p in t.products ensures t.products[p].quantity == SumDeltas(t.log, p) {
      SumDeltasAppend(s.log, e, p);
    }
  }

  /** A product the log never mentions has a zero balance. */
  lemma {:induction false} SumDeltasUntouched(log: seq<LogEntry>, id: Id)
    requires forall i :: 0 <= i < |log| ==> log[i].productId != id
    ensures SumDeltas(log, id) == 0
  {
    if |log| > 0 {
      SumDeltasUntouched(log[..|log| - 1], id);
    }
  }

  /** Every stored id, and every id the log mentions, was handed out already. */
  predicate IdsAllocated(s: Store) {
    && 1 <= s.nextCategoryId && 1 <= s.nextProductId && 1 <= s.nextLogId
    && (forall id :: id in s.categories ==> 1 <= id < s.nextCategoryId)
    && (forall id :: id in s.products ==> 1 <= id < s.nextProductId)
    && (forall i :: 0 <= i < |s.log| ==> s.log[i].productId < s.nextProductId)
    && (forall i :: 0 <= i < |s.log| ==> 1 <= s.log[i].logId < s.nextLogId)
  }

  /** Along the log, timestamps never decrease and log ids increase. */
  predicate Chronological(log: seq<LogEntry>) {
    forall i, j :: 0 <= i < j < |log| ==> log[i].timestamp <= log[j].timestamp && log[i].logId < log[j].logId
  }

  /** The log is chronological and no entry is stamped later than the clock. */
  predicate LogOrdered(s: Store) {
    && Chronological(s.log)
    && (forall i :: 0 <= i < |s.log| ==> s.log[i].timestamp <= s.clock)
  }

  /** The UNIQUE constraint on `categories.name`. */
  predicate UniqueNames(categories: map<Id, Category>) {
    forall a, b :: a in categories && b in categories && categories[a].name == categories[b].name ==> a == b
  }

  /** Ledger conservation: each stored quantity is the sum of its product's log deltas. */
  predicate Ledger(s: Store) {
    forall id :: id in s.products ==> s.products[id].quantity == SumDeltas(s.log, id)
  }

  predicate NonNegative(s: Store) {
    forall id :: id in s.products ==> s.products[id].quantity >= 0
  }

  predicate Invariant(s: Store) {
    IdsAllocated(s) && LogOrdered(s) && UniqueNames(s.categories) && Ledger(s)
  }
}

=== FILE: seed.dfy ===
/**
 Database initialization: the three tables are created when missing, and a
 database file that did not exist before is seeded with sample categories,
 sample products and one `INITIAL` log entry per product.
 */
module Seed {
  import opened Schema
  import Categories
  import Products

  datatype SeedCategory = SeedCategory(name: string, description: string)

  /** A sample product; `price` in cents. */
  datatype SeedProduct = SeedProduct(name: string, description: string, price: Price, quantity: int, categoryId: Id)

  const SampleCategories: seq<SeedCategory> := [
    SeedCategory("Electronics", "Electronic devices and accessories"),
    SeedCategory("Clothing", "Apparel and fashion items"),
    SeedCategory("Groceries", "Food and household supplies"),
    SeedCategory("Furniture", "Home and office furniture")
  ]

  const SampleProducts: seq<SeedProduct> := [
    SeedProduct("Laptop", "High-performance laptop", 99999, 10, 1),
    SeedProduct("Smartphone", "Latest smartphone model", 69999, 15, 1),
    SeedProduct("T-shirt", "Cotton t-shirt", 1999, 50, 2),
    SeedProduct("Jeans", "Denim jeans", 3999, 30, 2),
    SeedProduct("Rice", "5kg bag of rice", 1299, 100, 3),
    SeedProduct("Office Chair", "Ergonomic office chair", 14999, 5, 4)
  ]

  const InitialNote := "Initial inventory setup"

  predicate DistinctCategoryNames(cs: seq<SeedCategory>) {
    forall i, j :: 0 <= i < j < |cs| ==> cs[i].name != cs[j].name
  }

  predicate DistinctProductNames(ps: seq<SeedProduct>) {
    forall i, j :: 0 <= i < j < |ps| ==> ps[i].name != ps[j].name
  }

  /**
   `executemany` of the category INSERT. None when an insert violates the
   UNIQUE name constraint, which raises and aborts initialization.
   */
  function InsertCategories(s: Store, cs: seq<SeedCategory>): (r: Option<Store>)
    decreases |cs|
    ensures r.Some? ==> r.value.products == s.products && r.value.log == s.log && r.value.clock == s.clock
    ensures |cs| > 0 && Categories.NameInUse(s.categories, cs[0].name) ==> r.None?
  {
    if |cs| == 0 then Some(s)
    else
      var out := Categories.Create(s, cs[0].name, Some(cs[0].description));
      if out.result.None? then None else InsertCategories(out.store, cs[1..])
  }

  /** The categories `cs` stored under consecutive ids from `first`. */
  function CategoriesFrom(first: Id, cs: seq<SeedCategory>): map<Id, Category> {
    map id | first <= id < first + |cs| :: CategoryAt(first, cs, id)
  }

  function CategoryAt(first: Id, cs: seq<SeedCategory>, id: Id): Category
    requires first <= id < first + |cs|
  {
    Category(cs[id - first].name, Some(cs[id - first].description))
  }

  /** A run of categories from `n` is its first category at `n` followed by the rest from `n + 1`. */
  lemma CategoriesFromStep(m: map<Id, Category>, n: Id, cs: seq<SeedCategory>)
    requires |cs| > 0
    ensures m[n := CategoryAt(n, cs, n)] + CategoriesFrom(n + 1, cs[1..]) == m + CategoriesFrom(n, cs)
  {
    var lhs := m[n := CategoryAt(n, cs, n)] + CategoriesFrom(n + 1, cs[1..]);
    var rhs := m + CategoriesFrom(n, cs);
    assert lhs.Keys == rhs.Keys;
    forall id | id in lhs ensures lhs[id] == rhs[id] {
      if n < id < n + |cs| {
        assert cs[1..][id - (n + 1)] == cs[id - n];
      }
    }
  }

  /**
   Into tables that do not yet hold any of the names, distinct category names
   are all inserted, under consecutive fresh ids and in list order.
   */
  lemma {:induction false} InsertCategoriesFresh(s: Store, cs: seq<SeedCategory>)
    decreases |cs|
    requires forall id :: id in s.categories ==> id < s.nextCategoryId
    requires DistinctCategoryNames(cs)
    requires forall i :: 0 <= i < |cs| ==> !Categories.NameInUse(s.categories, cs[i].name)
    ensures InsertCategories(s, cs) ==
      Some(s.(categories := s.categories + CategoriesFrom(s.nextCategoryId, cs),
              nextCategoryId := s.nextCategoryId + |cs|))
  {
    if |cs| > 0 {
      var n := s.nextCategoryId;
      var out := Categories.Create(s, cs[0].name, Some(cs[0].description));
      assert !Categories.NameInUse(s.categories, cs[0].name);
      var t := out.store;
      assert t.categories == s.categories[n := CategoryAt(n, cs, n)];
      forall i | 0 <= i < |cs[1..]| ensures !Categories.NameInUse(t.categories, cs[1..][i].name) {
        assert cs[1..][i] == cs[i + 1];
      }
      assert InsertCategories(s, cs) == InsertCategories(t, cs[1..]);
      InsertCategoriesFresh(t, cs[1..]);
      CategoriesFromStep(s.categories, n, cs);
    } else {
      assert s.categories + CategoriesFrom(s.nextCategoryId, cs) == s.categories;
    }
  }

  /** `executemany` of the product INSERT; nothing constrains these rows, so it always succeeds. */
  function InsertProducts(s: Store, ps: seq<SeedProduct>): (r: Store)
    decreases |ps|
    ensures r.categories == s.categories && r.log == s.log && r.nextLogId == s.nextLogId && r.clock == s.clock
    ensures r.nextProductId == s.nextProductId + |ps|
  {
    if |ps| == 0 then s
    else
      var p := ps[0];
      InsertProducts(Products.Insert(s, p.name, Some(p.description), p.price, p.quantity, Some(p.categoryId)).store, ps[1..])
  }

  /** The products `ps` stored under consecutive ids from `first`, stamped `clock`. */
  function ProductsFrom(first: Id, ps: seq<SeedProduct>, clock: int): map<Id, Product> {
    map id | first <= id < first + |ps| :: ProductAt(first, ps, clock, id)
  }

  function ProductAt(first: Id, ps: seq<SeedProduct>, clock: int, id: Id): Product
    requires first <= id < first + |ps|
  {
    var p := ps[id - first];
    Product(p.name, Some(p.description), p.price, p.quantity, Some(p.categoryId), clock, clock)
  }

  /** A run of products from `n` is its first product at `n` followed by the rest from `n + 1`. */
  lemma ProductsFromStep(m: map<Id, Product>, n: Id, ps: seq<SeedProduct>, clock: int)
    requires |ps| > 0
    ensures m[n := ProductAt(n, ps, clock, n)] + ProductsFrom(n + 1, ps[1..], clock) == m + ProductsFrom(n, ps, clock)
  {
    var lhs := m[n := ProductAt(n, ps, clock, n)] + ProductsFrom(n + 1, ps[1..], clock);
    var rhs := m + ProductsFrom(n, ps, clock);
    assert lhs.Keys == rhs.Keys;
    forall id | id in lhs ensures lhs[id] == rhs[id] {
      if n < id < n + |ps| {
        assert ps[1..][id - (n + 1)] == ps[id - n];
      }
    }
  }

  /** Every sample product is inserted, under consecutive fresh ids and in list order. */
  lemma {:induction false} InsertProductsFresh(s: Store, ps: seq<SeedProduct>)
    decreases |ps|
    ensures InsertProducts(s, ps) ==
      s.(products := s.products + ProductsFrom(s.nextProductId, ps, s.clock),
         nextProductId := s.nextProductId + |ps|)
  {
    if |ps| > 0 {
      var n := s.nextProductId;
      var p := ps[0];
      var t := Products.Insert(s, p.name, Some(p.description), p.price, p.quantity, Some(p.categoryId)).store;
      assert t == s.(products := s.products[n := ProductAt(n, ps, s.clock, n)], nextProductId := n + 1);
      assert InsertProducts(s, ps) == InsertProducts(t, ps[1..]);
      InsertProductsFresh(t, ps[1..]);
      ProductsFromStep(s.products, n, ps, s.clock);
    } else {
      assert s.products + ProductsFrom(s.nextProductId, ps, s.clock) == s.products;
    }
  }

  /**
   `SELECT product_id FROM products WHERE name = ?` read with `fetchone`:
   the lowest id in `[lo, hi)` whose product carries `name`, scanning in id
   order, or None when no row matches.
   */
  function FirstNamed(products: map<Id, Product>, name: string, lo: Id, hi: Id): (r: Option<Id>)
    decreases hi - lo
    ensures r.Some? ==> lo <= r.value < hi && r.value in products && products[r.value].name == name
    ensures r.Some? ==> forall id :: lo <= id < r.value && id in products ==> products[id].name != name
    ensures r.None? ==> forall id :: lo <= id < hi && id in products ==> products[id].name != name
  {
    if lo >= hi then None
    else if lo in products && products[lo].name == name then Some(lo)
    else FirstNamed(products, name, lo + 1, hi)
  }

  /**
   The loop logging initial inventory: for each sample product, look its id
   up by name and log `INITIAL` with its quantity. None when a lookup finds
   no row (`fetchone()[0]` on no row raises).
   */
  function LogInitial(s: Store, ps: seq<SeedProduct>): (r: Option<Store>)
    decreases |ps|
    ensures r.Some? ==> r.value.categories == s.categories && r.value.products == s.products && r.value.clock == s.clock
    ensures |ps| > 0 && FirstNamed(s.products, ps[0].name, 1, s.nextProductId).None? ==> r.None?
    ensures r.Some? ==> |r.value.log| == |s.log| + |ps| && r.value.log[..|s.log|] == s.log
    ensures r.Some? ==> forall k :: |s.log| <= k < |r.value.log| ==>
      r.value.log[k].action == InitialAction && r.value.log[k].delta == ps[k - |s.log|].quantity
  {
    if |ps| == 0 then Some(s)
    else
      match FirstNamed(s.products, ps[0].name, 1, s.nextProductId)
      case None => None
      case Some(id) => LogInitial(AppendLog(s, id, InitialAction, ps[0].quantity, Some(InitialNote)), ps[1..])
  }

  /** The `INITIAL` entries: log ids from `firstLog`, product ids from `firstProduct`. */
  function InitialEntries(firstLog: Id, firstProduct: Id, ps: seq<SeedProduct>, clock: int): (log: seq<LogEntry>)
    ensures |log| == |ps|
  {
    seq(|ps|, i requires 0 <= i < |ps| =>
      LogEntry(firstLog + i, firstProduct + i, InitialAction, ps[i].quantity, clock, Some(InitialNote)))
  }

  lemma InitialEntriesStep(firstLog: Id, firstProduct: Id, ps: seq<SeedProduct>, clock: int)
    requires |ps| > 0
    ensures InitialEntries(firstLog, firstProduct, ps, clock)
         == [LogEntry(firstLog, firstProduct, InitialAction, ps[0].quantity, clock, Some(InitialNote))]
            + InitialEntries(firstLog + 1, firstProduct + 1, ps[1..], clock)
  {
  }

  /** One turn of the loop: the first name is found, and its entry is logged. */
  lemma LogInitialStep(s: Store, ps: seq<SeedProduct>, id: Id)
    requires |ps| > 0 && FirstNamed(s.products, ps[0].name, 1, s.nextProductId) == Some(id)
    ensures LogInitial(s, ps) == LogInitial(AppendLog(s, id, InitialAction, ps[0].quantity, Some(InitialNote)), ps[1..])
  {
  }

  /**
   When each name is found at the id right after the previous one, the loop
   logs one `INITIAL` entry per product, in list order.
   */
  lemma {:induction false} LogInitialFound(s: Store, ps: seq<SeedProduct>, first: Id)
    requires forall i :: 0 <= i < |ps| ==> FirstNamed(s.products, ps[i].name, 1, s.nextProductId) == Some(first + i)
    decreases |ps|
    ensures LogInitial(s, ps) ==
      Some(s.(log := s.log + InitialEntries(s.nextLogId, first, ps, s.clock), nextLogId := s.nextLogId + |ps|))
  {
    if |ps| > 0 {
      var t := AppendLog(s, first, InitialAction, ps[0].quantity, Some(InitialNote));
      FoundLater(s.products, s.nextProductId, ps, first);
      LogInitialStep(s, ps, first);
      LogInitialFound(t, ps[1..], first + 1);
      EntriesStep(s.log, s.nextLogId, first, ps, s.clock);
    } else {
      assert s.log + InitialEntries(s.nextLogId, first, ps, s.clock) == s.log;
    }
  }

  /** The names after the first are found at the ids after `first`. */
  lemma FoundLater(products: map<Id, Product>, next: Id, ps: seq<SeedProduct>, first: Id)
    requires |ps| > 0
    requires forall i :: 0 <= i < |ps| ==> FirstNamed(products, ps[i].name, 1, next) == Some(first + i)
    ensures forall i :: 0 <= i < |ps[1..]| ==> FirstNamed(products, ps[1..][i].name, 1, next) == Some(first + 1 + i)
  {
    forall i | 0 <= i < |ps[1..]|
      ensures FirstNamed(products, ps[1..][i].name, 1, next) == Some(first + 1 + i)
    {
      assert ps[1..][i] == ps[i + 1];
    }
  }

  /** Logging the first entry and then the rest is logging them all. */
  lemma EntriesStep(log: seq<LogEntry>, firstLog: Id, first: Id, ps: seq<SeedProduct>, clock: int)
    requires |ps| > 0
    ensures log + [LogEntry(firstLog, first, InitialAction, ps[0].quantity, clock, Some(InitialNote))]
              + InitialEntries(firstLog + 1, first + 1, ps[1..], clock)
         == log + InitialEntries(firstLog, first, ps, clock)
  {
    InitialEntriesStep(firstLog, first, ps, clock);
  }

  /** Lists `cs` and `ps` inserted into freshly created, empty tables stamped `now`, then logged. */
  function Populate(cs: seq<SeedCategory>, ps: seq<SeedProduct>, now: int): (r: Option<Store>)
    ensures r.Some? ==> r.value.clock == now && |r.value.log| == |ps|
    ensures r.Some? ==> forall k :: 0 <= k < |ps| ==>
      r.value.log[k].action == InitialAction && r.value.log[k].delta == ps[k].quantity
  {
    match InsertCategories(Empty(now), cs)
    case None => None
    case Some(s) => LogInitial(InsertProducts(s, ps), ps)
  }

  /**
   `initialize_database`: `existing` is the store in `inventory.db`, None when
   the file does not exist. `CREATE TABLE IF NOT EXISTS` leaves existing
   tables alone, and only a new file is seeded. None when seeding raises.
   */
  function InitializeDatabase(existing: Option<Store>, now: int): (r: Option<Store>)
    ensures existing.Some? ==> r == existing
  {
    if existing.Some? then existing else Populate(SampleCategories, SampleProducts, now)
  }

  /** The store seeded with `cs` and `ps`, spelled out: ids from 1 in list order, one entry per product. */
  function Seeded(cs: seq<SeedCategory>, ps: seq<SeedProduct>, now: int): Store {
    Store(CategoriesFrom(1, cs), ProductsFrom(1, ps, now), InitialEntries(1, 1, ps, now),
          |cs| + 1, |ps| + 1, |ps| + 1, now)
  }

  /** A name held by exactly one row in range is found at that row. */
  lemma FirstNamedUnique(products: map<Id, Product>, name: string, lo: Id, hi: Id, id: Id)
    requires lo <= id < hi && id in products && products[id].name == name
    requires forall other :: lo <= other < hi && other in products && products[other].name == name ==> other == id
    ensures FirstNamed(products, name, lo, hi) == Some(id)
  {
  }

  /** The `INITIAL` entries credit product `id` with its listed quantity and nothing else. */
  lemma {:induction false} InitialEntriesBalance(firstLog: Id, firstProduct: Id, ps: seq<SeedProduct>, clock: int, id: Id)
    ensures SumDeltas(InitialEntries(firstLog, firstProduct, ps, clock), id)
         == if firstProduct <= id < firstProduct + |ps| then ps[id - firstProduct].quantity else 0
  {
    if |ps| > 0 {
      var n := |ps| - 1;
      var log := InitialEntries(firstLog, firstProduct, ps, clock);
      assert log[..n] == InitialEntries(firstLog, firstProduct, ps[..n], clock);
      InitialEntriesBalance(firstLog, firstProduct, ps[..n], clock, id);
    }
  }

  /** With distinct product names, each lookup finds the row inserted for that name. */
  lemma ProductsFound(ps: seq<SeedProduct>, now: int, i: int)
    requires DistinctProductNames(ps) && 0 <= i < |ps|
    ensures FirstNamed(ProductsFrom(1, ps, now), ps[i].name, 1, |ps| + 1) == Some(1 + i)
  {
    var products := ProductsFrom(1, ps, now);
    forall other | 1 <= other < |ps| + 1 && other in products && products[other].name == ps[i].name
      ensures other == 1 + i
    {
      assert products[other].name == ps[other - 1].name;
    }
    FirstNamedUnique(products, ps[i].name, 1, |ps| + 1, 1 + i);
  }

  /** Freshly created tables holding the listed categories and products, before any log entry. */
  function Inserted(cs: seq<SeedCategory>, ps: seq<SeedProduct>, now: int): Store {
    Empty(now).(categories := CategoriesFrom(1, cs), products := ProductsFrom(1, ps, now),
                nextCategoryId := |cs| + 1, nextProductId := |ps| + 1)
  }

  lemma InsertedContents(cs: seq<SeedCategory>, ps: seq<SeedProduct>, now: int)
    requires DistinctCategoryNames(cs)
    ensures Populate(cs, ps, now) == LogInitial(Inserted(cs, ps, now), ps)
  {
    var s1 := Empty(now).(categories := CategoriesFrom(1, cs), nextCategoryId := |cs| + 1);
    assert InsertCategories(Empty(now), cs) == Some(s1) by {
      InsertCategoriesFresh(Empty(now), cs);
      assert map[] + CategoriesFrom(1, cs) == CategoriesFrom(1, cs);
    }
    assert InsertProducts(s1, ps) == Inserted(cs, ps, now) by {
      InsertProductsFresh(s1, ps);
      assert map[] + ProductsFrom(1, ps, now) == ProductsFrom(1, ps, now);
    }
  }

  lemma LoggedContents(cs: seq<SeedCategory>, ps: seq<SeedProduct>, now: int)
    requires DistinctProductNames(ps)
    ensures LogInitial(Inserted(cs, ps, now), ps) == Some(Seeded(cs, ps, now))
  {
    var s := Inserted(cs, ps, now);
    forall i | 0 <= i < |ps| ensures FirstNamed(s.products, ps[i].name, 1, s.nextProductId) == Some(1 + i) {
      ProductsFound(ps, now, i);
    }
    LogInitialFound(s, ps, 1);
    assert [] + InitialEntries(1, 1, ps, now) == InitialEntries(1, 1, ps, now);
  }

  /** Seeding new tables with distinct category and product names yields exactly the listed rows. */
  lemma PopulateContents(cs: seq<SeedCategory>, ps: seq<SeedProduct>, now: int)
    requires DistinctCategoryNames(cs) && DistinctProductNames(ps)
    ensures Populate(cs, ps, now) == Some(Seeded(cs, ps, now))
  {
    InsertedContents(cs, ps, now);
    LoggedContents(cs, ps, now);
  }

  /** Category names are unique because the list's are. */
  lemma SeededUniqueNames(cs: seq<SeedCategory>, ps: seq<SeedProduct>, now: int)
    requires DistinctCategoryNames(cs)
    ensures UniqueNames(Seeded(cs, ps, now).categories)
  {
    var c := Seeded(cs, ps, now).categories;
    forall a, b | a in c && b in c && c[a].name == c[b].name ensures a == b {
      assert c[a].name == cs[a - 1].name && c[b].name == cs[b - 1].name;
    }
  }

  /** Each product's `INITIAL` entry is its only entry, so the ledger balances. */
  lemma SeededLedger(cs: seq<SeedCategory>, ps: seq<SeedProduct>, now: int)
    ensures Ledger(Seeded(cs, ps, now))
  {
    var s := Seeded(cs, ps, now);
    forall id | id in s.products ensures s.products[id].quantity == SumDeltas(s.log, id) {
      InitialEntriesBalance(1, 1, ps, now, id);
    }
  }

  /** Every seeded id lies below its counter, and entries are stamped with one clock in id order. */
  lemma SeededOrdered(cs: seq<SeedCategory>, ps: seq<SeedProduct>, now: int)
    ensures IdsAllocated(Seeded(cs, ps, now)) && LogOrdered(Seeded(cs, ps, now))
  {
  }

  /** Each seeded log entry is the `INITIAL` entry of a distinct seeded product, for its starting quantity. */
  lemma SeededLogEntries(cs: seq<SeedCategory>, ps: seq<SeedProduct>, now: int)
    ensures var s := Seeded(cs, ps, now);
      && |s.log| == |ps|
      && (forall i :: 0 <= i < |s.log| ==>
            && s.log[i].productId in s.products
            && s.log[i].action == InitialAction
            && s.log[i].notes == Some(InitialNote)
            && s.log[i].delta == s.products[s.log[i].productId].quantity)
      && (forall i, j :: 0 <= i < j < |s.log| ==> s.log[i].productId != s.log[j].productId)
  {
  }

  predicate QuantitiesNonNegative(ps: seq<SeedProduct>) {
    forall i :: 0 <= i < |ps| ==> ps[i].quantity >= 0
  }

  /** Every listed product's category is one of the listed categories. */
  predicate CategoriesListed(cs: seq<SeedCategory>, ps: seq<SeedProduct>) {
    forall i :: 0 <= i < |ps| ==> 1 <= ps[i].categoryId <= |cs|
  }

  /** Non-negative listed stock stays non-negative, and listed category ids resolve. */
  lemma SeededStock(cs: seq<SeedCategory>, ps: seq<SeedProduct>, now: int)
    requires QuantitiesNonNegative(ps) && CategoriesListed(cs, ps)
    ensures var s := Seeded(cs, ps, now);
      && NonNegative(s)
      && forall id :: id in s.products ==> s.products[id].categoryId.Some? && s.products[id].categoryId.value in s.categories
  {
  }

  /** The facts about the sample lists the seeding proof rests on. */
  lemma SampleListsWellFormed()
    ensures DistinctCategoryNames(SampleCategories) && DistinctProductNames(SampleProducts)
    ensures QuantitiesNonNegative(SampleProducts) && CategoriesListed(SampleCategories, SampleProducts)
    ensures |SampleCategories| == 4 && |SampleProducts| == 6
  {
  }

  /**
   A new file is seeded with the four sample categories (ids 1 to 4), the six
   sample products (ids 1 to 6) and one `INITIAL` entry per product; the
   seeded store keeps the store invariant and no stock is negative.
   */
  lemma SeededStoreWellFormed(now: int)
    ensures InitializeDatabase(None, now) == Some(Seeded(SampleCategories, SampleProducts, now))
    ensures Invariant(Seeded(SampleCategories, SampleProducts, now))
    ensures NonNegative(Seeded(SampleCategories, SampleProducts, now))
  {
    SampleListsWellFormed();
    PopulateContents(SampleCategories, SampleProducts, now);
    SeededUniqueNames(SampleCategories, SampleProducts, now);
    SeededLedger(SampleCategories, SampleProducts, now);
    SeededOrdered(SampleCategories, SampleProducts, now);
    SeededStock(SampleCategories, SampleProducts, now);
  }
}

=== FILE: sql_text.dfy ===
/**
 Text matching as the store's query engine does it: the LIKE operator with
 no ESCAPE clause and SQLite's default ASCII-only case folding.
 */
module SqlText {

  /** Folds ASCII upper case to lower case and leaves every other character alone. */
  function Fold(c: char): char {
    if 'A' <= c <= 'Z' then (c as int + 32) as char else c
  }

  /**
   `text LIKE pattern`: '%' matches any run of characters, '_' exactly one
   character, and every other pattern character matches one text character
   equal to it up to ASCII case.
   */
  predicate Like(pattern: string, text: string)
    decreases |pattern| + |text|
  {
    if |pattern| == 0 then |text| == 0
    else if pattern[0] == '%' then Like(pattern[1..], text) || (|text| > 0 && Like(pattern, text[1..]))
    else |text| > 0 && (pattern[0] == '_' || Fold(pattern[0]) == Fold(text[0])) && Like(pattern[1..], text[1..])
  }

  /** A keyword with no LIKE wildcard in it. */
  predicate Plain(keyword: string) {
    forall i :: 0 <= i < |keyword| ==> keyword[i] != '%' && keyword[i] != '_'
  }

  /** `keyword` occurs in `text` at position `at`, up to ASCII case. */
  predicate MatchesAt(text: string, keyword: string, at: int) {
    && 0 <= at && at + |keyword| <= |text|
    && forall j :: 0 <= j < |keyword| ==> Fold(text[at + j]) == Fold(keyword[j])
  }

  /** Case-insensitive (ASCII) substring containment. */
  predicate ContainsFolded(text: string, keyword: string) {
    exists at :: 0 <= at <= |text| && MatchesAt(text, keyword, at)
  }

  lemma {:induction false} PercentMatchesAll(text: string)
    ensures Like("%", text)
  {
    if |text| > 0 {
      PercentMatchesAll(text[1..]);
    }
  }

  /** `keyword%` matches exactly the texts that start with `keyword`, up to case. */
  lemma {:induction false} PrefixPattern(keyword: string, text: string)
    requires Plain(keyword)
    ensures Like(keyword + "%", text) <==> MatchesAt(text, keyword, 0)
  {
    var p := keyword + "%";
    if |keyword| == 0 {
      assert p == "%";
      PercentMatchesAll(text);
    } else {
      assert p[0] == keyword[0];
      assert p[1..] == keyword[1..] + "%";
      if |text| > 0 {
        PrefixPattern(keyword[1..], text[1..]);
        if MatchesAt(text, keyword, 0) {
          assert MatchesAt(text[1..], keyword[1..], 0) by {
            forall j | 0 <= j < |keyword| - 1
              ensures Fold(text[1..][j]) == Fold(keyword[1..][j])
            {
              assert Fold(text[0 + (j + 1)]) == Fold(keyword[j + 1]);
            }
          }
        }
        if Fold(keyword[0]) == Fold(text[0]) && MatchesAt(text[1..], keyword[1..], 0) {
          forall j | 0 <= j < |keyword|
            ensures Fold(text[0 + j]) == Fold(keyword[j])
          {
            if j > 0 {
              assert Fold(text[1..][0 + (j - 1)]) == Fold(keyword[1..][j - 1]);
            }
          }
        }
      }
    }
  }

  /** A leading '%' lets the rest of the pattern match any suffix of the text. */
  lemma {:induction false} LeadingPercent(rest: string, text: string)
    ensures Like("%" + rest, text) <==> exists k :: 0 <= k <= |text| && Like(rest, text[k..])
  {
    var p := "%" + rest;
    assert p[0] == '%' && p[1..] == rest;
    if |text| == 0 {
      assert text[0..] == text;
    } else {
      LeadingPercent(rest, text[1..]);
      if Like(rest, text) {
        assert text[0..] == text;
      }
      if Like(p, text[1..]) {
        var k :| 0 <= k <= |text[1..]| && Like(rest, text[1..][k..]);
        assert text[1..][k..] == text[k + 1..];
      }
      if k :| 0 <= k <= |text| && Like(rest, text[k..]) {
        if k > 0 {
          assert text[1..][k - 1..] == text[k..];
        } else {
          assert text[k..] == text;
        }
      }
    }
  }

  /**
   For a keyword without wildcards, the search pattern `%keyword%` is exactly
   case-insensitive (ASCII) substring containment.
   */
  lemma LikeIsContains(keyword: string, text: string)
    requires Plain(keyword)
    ensures Like("%" + keyword + "%", text) <==> ContainsFolded(text, keyword)
  {
    assert "%" + keyword + "%" == "%" + (keyword + "%");
    LeadingPercent(keyword + "%", text);
    forall k | 0 <= k <= |text|
      ensures Like(keyword + "%", text[k..]) <==> MatchesAt(text, keyword, k)
    {
      PrefixPattern(keyword, text[k..]);
      if MatchesAt(text[k..], keyword, 0) {
        forall j | 0 <= j < |keyword|
          ensures Fold(text[k + j]) == Fold(keyword[j])
        {
          assert text[k..][0 + j] == text[k + j];
        }
      }
      if MatchesAt(text, keyword, k) {
        forall j | 0 <= j < |keyword|
          ensures Fold(text[k..][0 + j]) == Fold(keyword[j])
        {
          assert text[k..][0 + j] == text[k + j];
        }
      }
    }
    if ContainsFolded(text, keyword) {
      var at :| 0 <= at <= |text| && MatchesAt(text, keyword, at);
      assert Like(keyword + "%", text[at..]);
    }
  }

  /** An empty keyword gives the pattern '%%', which matches every text. */
  lemma EmptyKeywordMatchesAll(text: string)
    ensures Like("%" + "" + "%", text)
  {
    LikeIsContains("", text);
    assert MatchesAt(text, "", 0);
  }
}
